=== FILE: README.md ===
# Service bootstrap model

A Dafny model of the static `Core` orchestrator of the project-initialization
package: at start-up it orders every class implementing `ICoreService` by the
priority declared in its `[InitializeAtRuntime]` attribute, creates one object
per class, calls the before-hooks, each service's `Initialize` and the
after-hooks, and later answers `Get(Type)` lookups through a cache.

The model is a state machine over immutable values:

- `Base` — options, the C# `int` range for priorities, type and hook identities,
  created objects (`Instance`: a heap identity and a class), bootstrap errors.
- `RuntimeAttribute` — the descriptor, its constructor with the default
  priority, and a class as the bootstrap sees it (its own descriptor, if any,
  and its base class).
- `StableSort` — LINQ `OrderBy` on priorities as a stable insertion sort, with
  an independent characterisation: sorted, and every priority class keeps its
  discovery order; the two properties determine the result uniquely.
- `Ordering` — `OrderExecution`: fail on the first class without the
  descriptor, otherwise the stable order.
- `Registry` — the `Core` statics (`_services`, `_cacheServices`, the two
  hook lists, whether they have been assigned yet, and a heap mark standing
  for fresh allocation), the cached lookup `Get`, and `Add`/`Remove` for the
  hook lists.
- `Bootstrap` — `Initialize` as a transition that also returns the trace of
  calls made (before-hooks, service initializations, after-hooks), and the
  gated entry point `Init`.

Inputs that are reflection or I/O in the program are parameters: the
discovered classes in discovery order (`seq<ClassDecl>`), the subtyping
relation used by `IsInstanceOfType` (`TypeGraph`), what each class's
constructor does (`Constructor`: the hooks it appends with
`AddBeforeInitializeTask`/`AddAfterInitializeTask` while the run creates it,
and whether it then throws), and the `InitializeOnAwake` flag.

A run replaces both hook lists with new empty lists (`Runtime/Core.cs:43-44`)
before it creates the services (`:45-49`). So the hooks a run calls are
those its own constructors register, in creation order, unless a service's
`Initialize` or a before-hook registers an after-hook, which the after loop
(`:61-64`) then calls; that case is not modelled. Hooks registered before
the run are discarded.

The model follows the code in these details:

- Only the first class without the descriptor is reported, and the ordering stops there (`Runtime/Core.cs:106-112`).
- The `Remove*` operations of the UniTask build append (`Runtime/Core.cs:153`, `:161`). The synchronous ones remove the first equal hook (`:170`, `:178`).
- A throwing constructor leaves the objects made before it in `_services` (`Runtime/Core.cs:45-49`). After such a failed run, `Get` still finds them.
- `Get` and `Add*` dereference a field that is null until the first run (`Runtime/Core.cs:137`, `:166`, `:174`). The model makes "the fields are assigned" (`loaded`) their precondition.

## Model

| member | source | states |
|---|---|---|
| RuntimeAttribute.NewAttribute | Runtime/InitializeAtRuntimeAttribute.cs:8-12 | the descriptor keeps exactly the priority it was constructed with |
| RuntimeAttribute.DefaultPriorityIsZero | Runtime/InitializeAtRuntimeAttribute.cs:9 | constructed without an argument, the priority is 0 |
| StableSort.Insert | Runtime/Core.cs:115 | inserting into a sorted list keeps it sorted and adds exactly that one element |
| StableSort.OrderBy | Runtime/Core.cs:115 | the ordering is sorted by non-decreasing priority and is a permutation of its input |
| StableSort.InsertTies | Runtime/Core.cs:115 | an inserted element comes before every element of equal priority already present |
| StableSort.TiesOfCons | Runtime/Core.cs:115 | the tie class of a list is its first element, when that has the priority, followed by the tie class of the rest |
| StableSort.OrderByTies | Runtime/Core.cs:115 | for one priority, the elements with that priority keep their input order |
| StableSort.OrderByIsStable | Runtime/Core.cs:115 | for every priority, equal-priority elements keep their input order (stability) |
| StableSort.TiesContain | Runtime/Core.cs:115 | every element belongs to the tie class of its own priority |
| StableSort.TiesFrom | Runtime/Core.cs:115 | a tie class holds only elements of the list with that priority |
| StableSort.SameTiesSameHead | Runtime/Core.cs:115 | two sorted lists with the same tie classes start with the same element |
| StableSort.SameTiesOfTails | Runtime/Core.cs:115 | lists with the same tie classes and the same first element still have the same tie classes without it |
| StableSort.SortedWithSameTiesAreEqual | Runtime/Core.cs:115 | two sorted lists with the same tie classes are equal |
| StableSort.OrderByIsTheStableSort | Runtime/Core.cs:115 | a list is the ordering of the input exactly when it is sorted and stable, so the result is deterministic |
| Ordering.Validate | Runtime/Core.cs:106-115 | validation fails exactly when some class lacks the descriptor; the error names the first such class in discovery order; on success each class is paired with its declared priority, in order |
| Ordering.OrderExecution | Runtime/Core.cs:99-118 | the ordering fails exactly when some class lacks the descriptor, with the same error as validation; otherwise it is a sorted permutation of the validated candidates |
| Ordering.OrderExecutionIsStable | Runtime/Core.cs:115 | equal priorities keep discovery order, and the result is the only sorted rearrangement that does |
| RuntimeAttribute.GetAttribute | Runtime/Core.cs:120-123 | the descriptor found is the class's own, and there is none exactly when the class declares none; the base class is not consulted |
| Ordering.SubclassOfAnnotatedServiceIsRejected | Runtime/Core.cs:106-123 | a subclass of an annotated service that does not declare the attribute itself makes the ordering fail, and is named when it is the first such class |
| Registry.IsInstanceOfType | Runtime/Core.cs:139 | an object is an instance of its own class and of every class its class is assignable to |
| Registry.FirstMatch | Runtime/Core.cs:139 | null exactly when no service is an instance of the type; otherwise the earliest service that is one |
| Registry.Get | Runtime/Core.cs:127-144 | a cache hit is returned unchanged; with a coherent cache the answer is the first matching service; a hit is cached under the requested type; a miss changes nothing; the services and hook lists are never changed; coherence is kept |
| Registry.GetIsStable | Runtime/Core.cs:137-143 | in any state with assigned fields, a second lookup of the same type returns the same object and changes nothing |
| Registry.GetOnEmptyIsNull | Runtime/Core.cs:139-141 | with no services and an empty cache every lookup is null |
| Registry.IndexOf | Runtime/Core.cs:170 | the position found holds the hook and no earlier position does |
| Registry.RemoveFirst | Runtime/Core.cs:170 | removal deletes the first equal hook and keeps the others in order; an absent hook leaves the list unchanged |
| Registry.RemoveTakesOneCopy | Runtime/Core.cs:178 | removal takes away exactly one copy of the hook |
| Registry.RemoveUndoesAdd | Runtime/Core.cs:166-170 | adding a hook that was not registered and then removing it restores the list |
| Registry.AddBeforeInitializeTask | Runtime/Core.cs:174 | appends the hook to the end of the before list; nothing else changes |
| Registry.RemoveBeforeInitializeTask | Runtime/Core.cs:178 | removes the first equal hook from the before list; nothing else changes |
| Registry.AddAfterInitializeTask | Runtime/Core.cs:166 | appends the hook to the end of the after list; nothing else changes |
| Registry.RemoveAfterInitializeTask | Runtime/Core.cs:170 | removes the first equal hook from the after list; nothing else changes |
| Registry.HookEditsKeepLookups | Runtime/Core.cs:166-178 | each of the four hook edits keeps the cache coherent and leaves every lookup answer unchanged |
| Registry.AsyncRemoveAsWritten | Runtime/Core.cs:153-161 | the UniTask build's remove leaves the list unchanged and puts the hook after it |
| Registry.AsyncRemoveKeepsHook | Runtime/Core.cs:153-161 | the UniTask build's remove leaves the hook registered one more time, where true removal drops one copy |
| Bootstrap.RegistrationsOfPrefix | Runtime/Core.cs:45-49 | the hooks registered by the first `n` constructors are the first one's followed by those of the next `n - 1` |
| Bootstrap.Instantiate | Runtime/Core.cs:45-49 | one new object per ordered class, in order, with consecutive fresh identities; the run completes exactly when no constructor throws; a throwing constructor stops the loop, keeps the objects made before it and names its class |
| Bootstrap.InstantiateRegistrations | Runtime/Core.cs:45-49 | the hooks left registered are those of every constructor entered, the throwing one included, in creation order |
| Bootstrap.BeforeLoop | Runtime/Core.cs:51-54 | one before-hook call per list entry, in list order |
| Bootstrap.ServiceLoop | Runtime/Core.cs:56-59 | one `Initialize` call per service, in list order |
| Bootstrap.AfterLoop | Runtime/Core.cs:61-64 | one after-hook call per list entry, in list order |
| Bootstrap.PhaseOrder | Runtime/Core.cs:51-64 | every before-hook call precedes every service initialization, which precedes every after-hook call; each list is walked in its order |
| Bootstrap.Reset | Runtime/Core.cs:41-44 | the services, the cache and both hook lists are assigned new empty collections; no service object is allocated (the heap mark is unchanged) |
| Bootstrap.Initialize | Runtime/Core.cs:38-65 | a run empties the cache; on a missing descriptor it fails with no services, no hooks and no calls; otherwise its services are fresh objects of the ordered classes, in order; the hook lists hold exactly what the constructors entered registered; the run fails exactly when some constructor throws, stops at the first throwing constructor, names its class, keeps the objects made before it and makes no calls; a completed run calls the before-hooks, then each service, then the after-hooks |
| Bootstrap.RunShape | Runtime/Core.cs:40-64 | a run leaves the fields assigned and the cache empty, gives the services consecutive fresh identities, and its calls are the three phases when it completes and none when it fails |
| Bootstrap.RunServices | Runtime/Core.cs:40-49 | a run fails on a missing descriptor with no services, hooks or calls; otherwise it creates the ordered classes in order, none of whose constructors throws, and stops at the first throwing constructor, which it names |
| Bootstrap.RunRegistrations | Runtime/Core.cs:43-49 | a run ends with exactly the hooks registered by the constructors it entered, in creation order |
| Bootstrap.Init | Runtime/Core.cs:27-37 | with the flag off the state is unchanged and nothing is called; with it on, the result is that of `Initialize` |
| Bootstrap.ServicesFollowPriority | Runtime/Core.cs:40-59 | in a completed run the services are created and initialized by non-decreasing priority, ties in discovery order, each after every before-hook |
| Bootstrap.ServiceEventsOfPhases | Runtime/Core.cs:56-59 | every service-initialization call of a run's trace is the call for the service at the matching position of the list |
| Bootstrap.NoServiceInitializedTwice | Runtime/Core.cs:45-59 | no two service-initialization calls in a run's trace are the same, so no service is initialized twice |
| Bootstrap.InitializeDropsEarlierHooks | Runtime/Core.cs:43-49 | the run's outcome, state and calls do not depend on the hook lists it started with |
| Bootstrap.NoRegistrations | Runtime/Core.cs:45-49 | constructors that register nothing leave both registration lists empty |
| Bootstrap.SilentConstructorsRegisterNothing | Runtime/Core.cs:43-49 | when no constructor registers a hook, the run leaves both hook lists empty |
| Bootstrap.OnlyServiceEvents | Runtime/Core.cs:51-64 | with both hook lists empty, every call of a completed run is a service initialization |
| Bootstrap.SilentConstructorsCallNoHooks | Runtime/Core.cs:43-64 | when no constructor registers a hook, every call of the run is a service initialization |
| Bootstrap.ReadyIsKept | Runtime/Core.cs:38-49 | a run leaves the fields assigned, the cache coherent and every service older than the heap mark; lookups and hook edits keep that |
| Bootstrap.RerunReplacesServices | Runtime/Core.cs:41-49 | no service after a second run is one of the services before it |
| Bootstrap.LookupAfterRerunIsNew | Runtime/Core.cs:137-143 | a lookup that found an object before a second run does not return that object after it |
| Bootstrap.FailedValidationLeavesNothing | Runtime/Core.cs:40-45 | after a missing-descriptor failure there are no services and no hooks, no calls were made and every lookup is null |
| Bootstrap.InitKeepsReady | Runtime/Core.cs:27-37 | with the flag on, start-up leaves the registry ready for lookups (fields assigned, cache coherent, services allocated); with it off, the state is untouched |
| Bootstrap.DisabledInitCreatesNothing | Runtime/Core.cs:29-31 | with the flag off at process start, no service exists and nothing is called |
| Bootstrap.ExampleOrdering | Runtime/Core.cs:115 | classes discovered with priorities 2, 1, 1 are ordered second, third, first |
| Bootstrap.ExampleRegistrations | Runtime/Core.cs:45-49 | in that order, when the second class created registers hooks 7 and 8, the registration lists are `[7]` and `[8]` |
| Bootstrap.ExampleInstantiateLast | Runtime/Core.cs:45-49 | creating the last class takes the next identity and registers nothing |
| Bootstrap.ExampleInstantiateTail | Runtime/Core.cs:45-49 | creating the last two classes registers hooks 7 and 8 |
| Bootstrap.ExampleInstantiate | Runtime/Core.cs:45-49 | the three classes get identities 0, 1, 2 in priority order, with hooks 7 and 8 registered |
| Bootstrap.ExampleState | Runtime/Core.cs:38-49 | from process start, that run completes with the three services in priority order and hooks 7 and 8 registered |
| Bootstrap.ExamplePhases | Runtime/Core.cs:51-64 | the calls over those lists are hook 7, the three services, hook 8 |
| Bootstrap.ExampleRun | Runtime/Core.cs:38-64 | that run calls hook 7, initializes the services second, third, first, then calls hook 8 |
| Bootstrap.KeptListsPrefix | Runtime/Core.cs:43-49 | starting the constructors from given lists only puts those lists in front of what they register |
| Bootstrap.InitializeKeepingHooks | Runtime/Core.cs:43-44 | corrected run: the hooks registered before the run come first in the lists, followed by the constructors' ones; the services and the outcome are as in `Initialize`; the trace is the three phases over these lists |
| Bootstrap.RegisteredHookIgnored | Runtime/Core.cs:43-54 | as written, registering a before-hook between runs changes nothing about the next run: same state, same calls, same outcome |
| Bootstrap.RegisteredHookRunsFirst | Runtime/Core.cs:51-54 | with the lists kept, a before-hook registered between runs is called, before any service is initialized |

## Left out

- Discovery of candidate classes by scanning the loaded assemblies (`IsAssignableFrom`, `IsClass`): the discovered classes are an input, in discovery order, with distinct identities assumed but not needed.
- `Activator.CreateInstance`: modelled as allocation of a fresh identity. What the constructor body does is summarised by the input `Constructor`: the hooks it appends and whether it throws.
- Bootstrap.Initialize: a constructor is modelled as appending hooks and then possibly throwing. A constructor that calls `Remove*` or `Get`, or interleaves them with its `Add*` calls, is not modelled. Neither are calls into `Core` from a service's `Initialize` (`Runtime/Core.cs:58`) or from a hook (`:53`, `:63`). A service `Initialize` or a before-hook that calls `AddAfterInitializeTask` appends a hook that the after loop (`:61-64`) then calls, so the run calls a hook no constructor registered. A hook that adds to the list its own loop is walking makes that `foreach` throw. A service `Initialize` that calls `Get` fills the cache. The clauses on the empty cache, on the final hook lists and on the trace assume none of this happens.
- The UniTask build (`InitializeAsync` and the awaiting hook and service loops): it mirrors the synchronous path. Only its appending `Remove*` is modelled, as a finding.
- `Resources.Load` of the configuration asset: the `InitializeOnAwake` flag is a boolean input. A missing asset, which would dereference null, is not modelled.
- `Debug.LogError` and its message text: modelled as the error value `MissingAttribute` naming the class. After logging, the run aborts when `foreach` meets the null ordering; that abort is the same error value.
- `Editor/CoreConfigWindow.cs`: editor UI that edits the flag.
- The bodies of services' `Initialize` and of hooks: each call is one opaque trace event. Exceptions thrown from them are not modelled, so a run that passes instantiation always completes.
- The hook delegates are `Func<Action>`: a hook loop invokes the `Func` and discards the returned `Action`. The event stands for invoking the `Func`; the discarded `Action` is never called, so it has no event.
- More than one descriptor on a class cannot be expressed: the attribute usage forbids it, and the model encodes this by giving each class an `Option` descriptor.
- `Get(null)` would throw `ArgumentNullException`: type identities are never null in the model.
- `Get<T>` casts the result of `Get(typeof(T))`. The cast always succeeds on a matching object, so it is the same lookup.

## Findings

| source | as written | input that shows it | evidently intended | confidence | as-written member | corrected member |
|---|---|---|---|---|---|---|
| Runtime/Core.cs:43-44 | `Initialize` assigns new empty lists to both hook fields before it creates the services. The hooks called are those the run's own constructors register, unless a service's `Initialize` or a before-hook registers an after-hook, which the after loop then calls (not modelled). Hooks registered between runs are discarded by the next run, and before the first run `Add*` dereferences null | a loaded state, then `AddBeforeInitializeTask(h)`, then `Initialize` with any classes and constructors: the state, the calls and the outcome are the same as without `h` | hooks registered before a run are called by that run, before-hooks ahead of every service | medium (registration from constructors may be the intended channel); not executed | Bootstrap.RegisteredHookIgnored | Bootstrap.RegisteredHookRunsFirst |
| Runtime/Core.cs:153-161 | in the UniTask build, `RemoveAfterInitializeTask` and `RemoveBeforeInitializeTask` call `Add` | any list `l` and hook `h`: afterwards `h` occurs once more than in `l` | remove the first equal hook, as the synchronous build does | high; not executed | Registry.AsyncRemoveKeepsHook | Registry.RemoveTakesOneCopy |



=== FILE: attribute.dfy ===
/** The `InitializeAtRuntime` descriptor and the lookup of it on a class. */
module RuntimeAttribute {
  import opened Base

  /** The descriptor: one priority, fixed when the attribute is constructed
      (a get-only property), lower runs earlier. */
  datatype InitializeAtRuntime = InitializeAtRuntime(InitializationPriority: int32)

  /** A class as the bootstrap sees it. `declared` is the descriptor written on
      the class itself: an `Option`, because the attribute usage forbids more
      than one per class. `base` is the superclass, whose descriptor is not
      inherited. */
  datatype ClassDecl = ClassDecl(id: TypeId, base: Option<TypeId>, declared: Option<InitializeAtRuntime>)

  /** The attribute constructor, with C#'s optional argument defaulting to 0. */
  function NewAttribute(initializationPriority: int32 := 0): (a: InitializeAtRuntime)
    ensures a.InitializationPriority == initializationPriority
  {
    InitializeAtRuntime(initializationPriority)
  }

  lemma DefaultPriorityIsZero()
    ensures NewAttribute().InitializationPriority == 0
  {
  }

  /** The descriptor lookup with `inherit: false` on a non-inherited attribute:
      only what the class itself declares is seen, never its base's. */
  function GetAttribute(c: ClassDecl): (r: Option<InitializeAtRuntime>)
    ensures r.None? <==> c.declared.None?
    ensures r.Some? ==> r == c.declared
  {
    c.declared
  }
}

=== FILE: base.dfy ===
/** Vocabulary shared by the bootstrap model: optional values, results, the
    C# `int` used for priorities, type identities and created objects. */
module Base {

  datatype Option<+T> = None | Some(value: T)

  /** A C# `int`. Priorities are only compared, never computed with, so no
      wrap-around can arise; the range is kept for fidelity. */
  newtype int32 = x: int | -0x8000_0000 <= x < 0x8000_0000

  /** Runtime identity of a class or interface (a `System.Type`). */
  type TypeId = nat

  /** Identity of a hook delegate (`Func<Action>`); delegates compare by value. */
  type Hook = nat

  /** An object created by the bootstrap: a fresh heap identity and its
      concrete class. */
  datatype Instance = Instance(id: nat, ty: TypeId)

  /** Why a bootstrap run stops: a candidate class without the descriptor
      attribute (logged, after which the null ordering is iterated and the
      run aborts), or a constructor that throws. */
  datatype BootError = MissingAttribute(ty: TypeId) | ConstructorFailed(ty: TypeId)
}

=== FILE: bootstrap.dfy ===
/** A bootstrap run (`Initialize`) and its gated entry point (`Init`), as a
    pure transition of the `Core` state that also yields the trace of the
    calls the run makes. The bodies of services' `Initialize` and of hooks are
    opaque: each call is one trace event. A service constructor may register
    hooks while the run creates it; what each constructor registers, and
    whether it throws, is an input. */
module Bootstrap {
  import opened Base
  import opened RuntimeAttribute
  import opened StableSort
  import opened Ordering
  import opened Registry

  datatype Event =
    | BeforeHookRan(hook: Hook)
    | ServiceInitialized(service: Instance)
    | AfterHookRan(hook: Hook)

  /** What a class's parameterless constructor does that the bootstrap can
      observe: the hooks it appends with `AddBeforeInitializeTask` and
      `AddAfterInitializeTask`, and whether it then throws (no parameterless
      constructor, an abstract class, or a throwing body). */
  datatype Constructor = Constructor(addsBefore: seq<Hook>, addsAfter: seq<Hook>, throws: bool)

  /** The constructor of `t`; classes not listed construct without effect. */
  function CtorOf(ctors: map<TypeId, Constructor>, t: TypeId): Constructor {
    if t in ctors then ctors[t] else Constructor([], [], false)
  }

  /** The before-hooks the constructors of `ordered` append, in creation order. */
  function BeforeRegistrations(ordered: seq<Candidate>, ctors: map<TypeId, Constructor>): seq<Hook> {
    if ordered == [] then []
    else CtorOf(ctors, ordered[0].ty).addsBefore + BeforeRegistrations(ordered[1..], ctors)
  }

  /** The after-hooks the constructors of `ordered` append, in creation order. */
  function AfterRegistrations(ordered: seq<Candidate>, ctors: map<TypeId, Constructor>): seq<Hook> {
    if ordered == [] then []
    else CtorOf(ctors, ordered[0].ty).addsAfter + AfterRegistrations(ordered[1..], ctors)
  }

  /** The objects made by the instantiation loop, the heap mark after them,
      the hooks their constructors registered, and the constructor that
      threw, if one did. */
  datatype Creation = Creation(made: seq<Instance>, next: nat, before: seq<Hook>, after: seq<Hook>,
                               failure: Option<BootError>)

  /** How many constructors the loop entered: the objects made, plus the one
      that threw. */
  function Entered(r: Creation): nat {
    if r.failure.Some? then |r.made| + 1 else |r.made|
  }

  /** The registrations of the first `n` constructors: the first one's, then
      those of the next `n - 1`. */
  lemma RegistrationsOfPrefix(ordered: seq<Candidate>, n: nat, ctors: map<TypeId, Constructor>)
    requires 1 <= n <= |ordered|
    ensures BeforeRegistrations(ordered[..n], ctors)
         == CtorOf(ctors, ordered[0].ty).addsBefore + BeforeRegistrations(ordered[1..][..n - 1], ctors)
    ensures AfterRegistrations(ordered[..n], ctors)
         == CtorOf(ctors, ordered[0].ty).addsAfter + AfterRegistrations(ordered[1..][..n - 1], ctors)
  {
    assert ordered[..n][1..] == ordered[1..][..n - 1];
  }

  /** `Activator.CreateInstance` for each ordered type in turn. A throwing
      constructor ends the loop; the objects made before it stay in the
      list, and the hooks registered by every constructor entered, the
      throwing one included, stay registered. */
  function Instantiate(ordered: seq<Candidate>, next: nat, ctors: map<TypeId, Constructor>): (r: Creation)
    ensures |r.made| <= |ordered| && r.next == next + |r.made|
    ensures forall i :: 0 <= i < |r.made| ==> r.made[i] == Instance(next + i, ordered[i].ty)
    ensures forall i :: 0 <= i < |r.made| ==> !CtorOf(ctors, ordered[i].ty).throws
    ensures r.failure.None? <==> forall i :: 0 <= i < |ordered| ==> !CtorOf(ctors, ordered[i].ty).throws
    ensures r.failure.None? ==> |r.made| == |ordered|
    ensures r.failure.Some? ==> |r.made| < |ordered| && CtorOf(ctors, ordered[|r.made|].ty).throws
                                && r.failure == Some(ConstructorFailed(ordered[|r.made|].ty))
  {
    if ordered == [] then Creation([], next, [], [], None)
    else
      var k := CtorOf(ctors, ordered[0].ty);
      if k.throws then Creation([], next, k.addsBefore, k.addsAfter, Some(ConstructorFailed(ordered[0].ty)))
      else
        var rest := Instantiate(ordered[1..], next + 1, ctors);
        Creation([Instance(next, ordered[0].ty)] + rest.made, rest.next,
                 k.addsBefore + rest.before, k.addsAfter + rest.after, rest.failure)
  }

  /** The hooks left registered by the instantiation loop are those of every
      constructor it entered, in creation order. */
  lemma {:induction false} InstantiateRegistrations(ordered: seq<Candidate>, next: nat, ctors: map<TypeId, Constructor>)
    ensures var r := Instantiate(ordered, next, ctors);
            && Entered(r) <= |ordered|
            && r.before == BeforeRegistrations(ordered[..Entered(r)], ctors)
            && r.after == AfterRegistrations(ordered[..Entered(r)], ctors)
  {
    if ordered != [] {
      var r := Instantiate(ordered, next, ctors);
      if CtorOf(ctors, ordered[0].ty).throws {
        RegistrationsOfPrefix(ordered, 1, ctors);
      } else {
        var rest := Instantiate(ordered[1..], next + 1, ctors);
        InstantiateRegistrations(ordered[1..], next + 1, ctors);
        assert Entered(r) == Entered(rest) + 1;
        RegistrationsOfPrefix(ordered, Entered(r), ctors);
      }
    }
  }

  /** The before-hook loop: each hook in the list is called once, in order. */
  function BeforeLoop(before: seq<Hook>): (t: seq<Event>)
    ensures |t| == |before|
    ensures forall i :: 0 <= i < |t| ==> t[i] == BeforeHookRan(before[i])
  {
    if before == [] then [] else [BeforeHookRan(before[0])] + BeforeLoop(before[1..])
  }

  /** The service loop: each service's `Initialize` is called once, in order. */
  function ServiceLoop(services: seq<Instance>): (t: seq<Event>)
    ensures |t| == |services|
    ensures forall i :: 0 <= i < |t| ==> t[i] == ServiceInitialized(services[i])
  {
    if services == [] then [] else [ServiceInitialized(services[0])] + ServiceLoop(services[1..])
  }

  /** The after-hook loop: each hook in the list is called once, in order. */
  function AfterLoop(after: seq<Hook>): (t: seq<Event>)
    ensures |t| == |after|
    ensures forall i :: 0 <= i < |t| ==> t[i] == AfterHookRan(after[i])
  {
    if after == [] then [] else [AfterHookRan(after[0])] + AfterLoop(after[1..])
  }

  /** The three loops of a run, one after the other. */
  function Phases(before: seq<Hook>, services: seq<Instance>, after: seq<Hook>): seq<Event> {
    BeforeLoop(before) + ServiceLoop(services) + AfterLoop(after)
  }

  function Phase(e: Event): nat {
    match e
    case BeforeHookRan(_) => 0
    case ServiceInitialized(_) => 1
    case AfterHookRan(_) => 2
  }

  /** Before-hooks strictly precede every service initialization, which
      strictly precede every after-hook; each list is walked in its order. */
  lemma PhaseOrder(before: seq<Hook>, services: seq<Instance>, after: seq<Hook>)
    ensures var t := Phases(before, services, after);
      && |t| == |before| + |services| + |after|
      && (forall i, j :: 0 <= i < j < |t| ==> Phase(t[i]) <= Phase(t[j]))
      && (forall k :: 0 <= k < |before| ==> t[k] == BeforeHookRan(before[k]))
      && (forall k :: 0 <= k < |services| ==> t[|before| + k] == ServiceInitialized(services[k]))
      && (forall k :: 0 <= k < |after| ==> t[|before| + |services| + k] == AfterHookRan(after[k]))
  {
  }

  /** The outcome of a run: the state it leaves, the calls it made, and the
      error it stopped with (`None` when it completed). */
  datatype Run = Run(core: Core, trace: seq<Event>, failure: Option<BootError>)

  /** The statics as a run leaves them before its loops: every collection
      replaced by a new, empty one, the heap untouched. */
  function Reset(c: Core): (r: Core)
    ensures r.loaded && r.services == [] && r.cache == map[] && r.before == [] && r.after == []
    ensures r.nextObject == c.nextObject
  {
    Core(true, [], map[], [], [], c.nextObject)
  }

  /** A run whose hook lists start as `before` and `after` when the
      constructors run. */
  function RunWith(c: Core, classes: seq<ClassDecl>, ctors: map<TypeId, Constructor>,
                   before: seq<Hook>, after: seq<Hook>): Run
  {
    var o := OrderExecution(classes);
    var reset := Reset(c).(before := before, after := after);
    if o.Invalid? then Run(reset, [], Some(o.error))
    else
      var made := Instantiate(o.candidates, c.nextObject, ctors);
      var s := reset.(services := made.made, nextObject := made.next,
                      before := before + made.before, after := after + made.after);
      Run(s, if made.failure.Some? then [] else Phases(s.before, s.services, s.after), made.failure)
  }

  /** `Initialize`, as written: the ordering is computed, then the services,
      the cache and both hook lists are replaced by new empty collections.
      The hook lists therefore hold only what the run's own constructors
      register (services and hooks calling back into `Core` are not
      modelled). A missing descriptor surfaces only after that reset; a
      throwing constructor leaves the objects made so far as the services
      and calls nothing. */
  function Initialize(c: Core, classes: seq<ClassDecl>, ctors: map<TypeId, Constructor>): (r: Run)
    ensures r.core.loaded && r.core.cache == map[]
    ensures r.core.nextObject == c.nextObject + |r.core.services|
    ensures forall i :: 0 <= i < |r.core.services| ==> r.core.services[i].id == c.nextObject + i
    ensures OrderExecution(classes).Invalid? ==>
              && r.failure == Some(OrderExecution(classes).error) && r.trace == []
              && r.core.services == [] && r.core.before == [] && r.core.after == []
    ensures OrderExecution(classes).Valid? ==>
              var ordered := OrderExecution(classes).candidates;
              var entered := if r.failure.Some? then |r.core.services| + 1 else |r.core.services|;
              && entered <= |ordered|
              && (forall i :: 0 <= i < |r.core.services| ==> r.core.services[i].ty == ordered[i].ty)
              && (r.failure.None? <==> forall i :: 0 <= i < |ordered| ==> !CtorOf(ctors, ordered[i].ty).throws)
              && (r.failure.None? ==> |r.core.services| == |ordered|)
              && (forall i :: 0 <= i < |r.core.services| ==> !CtorOf(ctors, ordered[i].ty).throws)
              && (r.failure.Some? ==>
                    && CtorOf(ctors, ordered[|r.core.services|].ty).throws
                    && r.failure == Some(ConstructorFailed(ordered[|r.core.services|].ty)))
              && r.core.before == BeforeRegistrations(ordered[..entered], ctors)
              && r.core.after == AfterRegistrations(ordered[..entered], ctors)
    ensures r.failure.None? ==> r.trace == Phases(r.core.before, r.core.services, r.core.after)
    ensures r.failure.Some? ==> r.trace == []
  {
    RunShape(c, classes, ctors);
    RunServices(c, classes, ctors);
    RunRegistrations(c, classes, ctors);
    RunWith(c, classes, ctors, [], [])
  }

  /** A run from empty lists: the fields are assigned, the cache is empty, the
      services take consecutive fresh identities, and the trace is the three
      phases when the run completes and empty when it fails. */
  lemma RunShape(c: Core, classes: seq<ClassDecl>, ctors: map<TypeId, Constructor>)
    ensures var r := RunWith(c, classes, ctors, [], []);
            && r.core.loaded && r.core.cache == map[]
            && r.core.nextObject == c.nextObject + |r.core.services|
            && (forall i :: 0 <= i < |r.core.services| ==> r.core.services[i].id == c.nextObject + i)
            && (r.failure.None? ==> r.trace == Phases(r.core.before, r.core.services, r.core.after))
            && (r.failure.Some? ==> r.trace == [])
  {
  }

  /** A run from empty lists fails on a missing descriptor with nothing, and
      otherwise creates the ordered classes until a constructor throws. */
  lemma RunServices(c: Core, classes: seq<ClassDecl>, ctors: map<TypeId, Constructor>)
    ensures var r := RunWith(c, classes, ctors, [], []);
            && (OrderExecution(classes).Invalid? ==>
                  && r.failure == Some(OrderExecution(classes).error) && r.trace == []
                  && r.core.services == [] && r.core.before == [] && r.core.after == [])
            && (OrderExecution(classes).Valid? ==>
                  var ordered := OrderExecution(classes).candidates;
                  && (if r.failure.Some? then |r.core.services| + 1 else |r.core.services|) <= |ordered|
                  && (forall i :: 0 <= i < |r.core.services| ==> r.core.services[i].ty == ordered[i].ty)
                  && (r.failure.None? <==> forall i :: 0 <= i < |ordered| ==> !CtorOf(ctors, ordered[i].ty).throws)
                  && (r.failure.None? ==> |r.core.services| == |ordered|)
                  && (forall i :: 0 <= i < |r.core.services| ==> !CtorOf(ctors, ordered[i].ty).throws)
                  && (r.failure.Some? ==>
                        && CtorOf(ctors, ordered[|r.core.services|].ty).throws
                        && r.failure == Some(ConstructorFailed(ordered[|r.core.services|].ty))))
  {
  }

  /** A run from empty lists ends with the hooks of the constructors it entered. */
  lemma RunRegistrations(c: Core, classes: seq<ClassDecl>, ctors: map<TypeId, Constructor>)
    ensures var r := RunWith(c, classes, ctors, [], []);
            OrderExecution(classes).Valid? ==>
              var ordered := OrderExecution(classes).candidates;
              var entered := if r.failure.Some? then |r.core.services| + 1 else |r.core.services|;
              && entered <= |ordered|
              && r.core.before == BeforeRegistrations(ordered[..entered], ctors)
              && r.core.after == AfterRegistrations(ordered[..entered], ctors)
  {
    var o := OrderExecution(classes);
    if o.Valid? {
      InstantiateRegistrations(o.candidates, c.nextObject, ctors);
    }
  }

  /** `Init`: reads the `InitializeOnAwake` flag of the configuration asset
      and runs `Initialize` only when it is set. */
  function Init(c: Core, initializeOnAwake: bool, classes: seq<ClassDecl>, ctors: map<TypeId, Constructor>): (r: Run)
    ensures !initializeOnAwake ==> r == Run(c, [], None)
    ensures initializeOnAwake ==> r == Initialize(c, classes, ctors)
  {
    if !initializeOnAwake then Run(c, [], None) else Initialize(c, classes, ctors)
  }

  /** In a completed run the services are the ordered candidates' classes,
      created and initialized by ascending priority, ties in discovery order,
      after every before-hook. */
  lemma ServicesFollowPriority(c: Core, classes: seq<ClassDecl>, ctors: map<TypeId, Constructor>)
    requires Initialize(c, classes, ctors).failure.None?
    ensures OrderExecution(classes).Valid?
    ensures var r := Initialize(c, classes, ctors);
            var ordered := OrderExecution(classes).candidates;
            && |r.core.services| == |ordered| == |classes|
            && SameTies(ordered, Validate(classes).candidates)
            && (forall i, j :: 0 <= i < j < |ordered| ==> ordered[i].priority <= ordered[j].priority)
            && (forall i :: 0 <= i < |ordered| ==>
                  && r.core.services[i].ty == ordered[i].ty
                  && r.trace[|r.core.before| + i] == ServiceInitialized(r.core.services[i]))
  {
    var r := Initialize(c, classes, ctors);
    assert OrderExecution(classes).Valid?;
    OrderExecutionIsStable(classes, OrderExecution(classes).candidates);
    PhaseOrder(r.core.before, r.core.services, r.core.after);
  }

  /** The service events of the phases are exactly the service loop's. */
  lemma ServiceEventsOfPhases(before: seq<Hook>, services: seq<Instance>, after: seq<Hook>)
    ensures var t := Phases(before, services, after);
            forall i :: 0 <= i < |t| && t[i].ServiceInitialized? ==>
              |before| <= i < |before| + |services| && t[i].service == services[i - |before|]
  {
    PhaseOrder(before, services, after);
  }

  /** No service is initialized twice: a run's objects have distinct identities. */
  lemma NoServiceInitializedTwice(c: Core, classes: seq<ClassDecl>, ctors: map<TypeId, Constructor>)
    ensures var t := Initialize(c, classes, ctors).trace;
            forall i, j :: 0 <= i < j < |t| && t[i].ServiceInitialized? && t[j].ServiceInitialized?
                           ==> t[i] != t[j]
  {
    var r := Initialize(c, classes, ctors);
    if r.failure.None? {
      ServiceEventsOfPhases(r.core.before, r.core.services, r.core.after);
    }
  }

  /** The hooks registered before a run play no part in it: the run leaves
      the same state and makes the same calls whatever the hook lists held.
      In the model, the hooks it calls are those its own constructors
      register. */
  lemma InitializeDropsEarlierHooks(c: Core, classes: seq<ClassDecl>, ctors: map<TypeId, Constructor>,
                                    before: seq<Hook>, after: seq<Hook>)
    ensures Initialize(c.(before := before, after := after), classes, ctors) == Initialize(c, classes, ctors)
  {
  }

  lemma {:induction false} NoRegistrations(ordered: seq<Candidate>, ctors: map<TypeId, Constructor>)
    requires forall t :: t in ctors ==> ctors[t].addsBefore == [] && ctors[t].addsAfter == []
    ensures BeforeRegistrations(ordered, ctors) == [] && AfterRegistrations(ordered, ctors) == []
  {
    if ordered != [] {
      NoRegistrations(ordered[1..], ctors);
    }
  }

  /** When no constructor registers a hook, a run leaves both hook lists empty. */
  lemma SilentConstructorsRegisterNothing(c: Core, classes: seq<ClassDecl>, ctors: map<TypeId, Constructor>)
    requires forall t :: t in ctors ==> ctors[t].addsBefore == [] && ctors[t].addsAfter == []
    ensures Initialize(c, classes, ctors).core.before == []
    ensures Initialize(c, classes, ctors).core.after == []
  {
    var o := OrderExecution(classes);
    if o.Valid? {
      var made := Instantiate(o.candidates, c.nextObject, ctors);
      InstantiateRegistrations(o.candidates, c.nextObject, ctors);
      NoRegistrations(o.candidates[..Entered(made)], ctors);
      assert [] + made.before == made.before && [] + made.after == made.after;
    }
  }

  /** A trace with no hook lists holds only service initializations. */
  lemma OnlyServiceEvents(t: seq<Event>, services: seq<Instance>)
    requires t == [] || t == Phases([], services, [])
    ensures forall i :: 0 <= i < |t| ==> t[i].ServiceInitialized?
  {
    ServiceEventsOfPhases([], services, []);
  }

  /** When no constructor registers a hook, a run calls no hook at all. */
  lemma SilentConstructorsCallNoHooks(c: Core, classes: seq<ClassDecl>, ctors: map<TypeId, Constructor>)
    requires forall t :: t in ctors ==> ctors[t].addsBefore == [] && ctors[t].addsAfter == []
    ensures var r := Initialize(c, classes, ctors);
            forall i :: 0 <= i < |r.trace| ==> r.trace[i].ServiceInitialized?
  {
    var r := Initialize(c, classes, ctors);
    SilentConstructorsRegisterNothing(c, classes, ctors);
    OnlyServiceEvents(r.trace, r.core.services);
  }

  /** The state every lookup relies on: fields assigned, cache agreeing with
      the services, services older than the heap mark. */
  ghost predicate Ready(g: TypeGraph, c: Core) {
    c.loaded && CacheCoherent(g, c) && Allocated(c)
  }

  /** A run establishes `Ready` from any allocated state, and lookups and
      hook edits keep it. */
  lemma ReadyIsKept(g: TypeGraph, c: Core, classes: seq<ClassDecl>, ctors: map<TypeId, Constructor>, t: TypeId, h: Hook)
    requires Allocated(c)
    ensures Ready(g, Initialize(c, classes, ctors).core)
    ensures Ready(g, c) ==> Ready(g, Get(g, c, t).core)
    ensures Ready(g, c) ==> Ready(g, AddBeforeInitializeTask(c, h)) && Ready(g, RemoveBeforeInitializeTask(c, h))
    ensures Ready(g, c) ==> Ready(g, AddAfterInitializeTask(c, h)) && Ready(g, RemoveAfterInitializeTask(c, h))
  {
    if Ready(g, c) {
      HookEditsKeepLookups(g, c, h, t);
    }
  }

  /** A second run replaces every object of the first: no service of the
      new registry is one of the old registry's. */
  lemma RerunReplacesServices(c: Core, classes: seq<ClassDecl>, ctors: map<TypeId, Constructor>)
    requires Allocated(c)
    ensures var r := Initialize(c, classes, ctors);
            forall i, j :: 0 <= i < |c.services| && 0 <= j < |r.core.services|
                           ==> c.services[i] != r.core.services[j]
  {
  }

  /** A lookup that succeeded before a second run does not return the same
      object after it. */
  lemma LookupAfterRerunIsNew(g: TypeGraph, c: Core, classes: seq<ClassDecl>, ctors: map<TypeId, Constructor>, t: TypeId)
    requires Ready(g, c) && Get(g, c, t).result.Some?
    ensures Get(g, Initialize(c, classes, ctors).core, t).result != Get(g, c, t).result
  {
    var prior := Get(g, c, t).result.value;
    assert prior in c.services;
    RerunReplacesServices(c, classes, ctors);
    var renewed := Get(g, Initialize(c, classes, ctors).core, t).result;
    if renewed.Some? {
      assert renewed.value in Initialize(c, classes, ctors).core.services;
    }
  }

  /** A missing descriptor still resets the registry first: afterwards there
      are no services and no hooks, and every lookup returns null. */
  lemma FailedValidationLeavesNothing(g: TypeGraph, c: Core, classes: seq<ClassDecl>,
                                      ctors: map<TypeId, Constructor>, t: TypeId)
    requires exists i :: 0 <= i < |classes| && classes[i].declared.None?
    ensures var r := Initialize(c, classes, ctors);
            && r.failure.Some? && r.failure.value.MissingAttribute?
            && r.core.services == [] && r.core.before == [] && r.core.after == [] && r.trace == []
            && Get(g, r.core, t) == Lookup(None, r.core)
  {
    var i :| 0 <= i < |classes| && classes[i].declared.None?;
    assert !Annotated(classes[i]);
  }

  /** Start-up leaves the registry ready for lookups when the flag is set,
      and leaves any state as it was when it is not. */
  lemma InitKeepsReady(g: TypeGraph, c: Core, initializeOnAwake: bool,
                       classes: seq<ClassDecl>, ctors: map<TypeId, Constructor>)
    requires Allocated(c)
    ensures initializeOnAwake ==> Ready(g, Init(c, initializeOnAwake, classes, ctors).core)
    ensures !initializeOnAwake ==> Init(c, initializeOnAwake, classes, ctors).core == c
  {
    ReadyIsKept(g, c, classes, ctors, 0, 0);
  }

  /** With the flag off nothing changes: in particular, starting from process
      start no service exists until `Initialize` is called by hand. */
  lemma DisabledInitCreatesNothing(classes: seq<ClassDecl>, ctors: map<TypeId, Constructor>)
    ensures Init(Unloaded, false, classes, ctors).core == Unloaded
    ensures Init(Unloaded, false, classes, ctors).trace == []
  {
  }

  /** Three services discovered with priorities 2, 1, 1: the two of priority
      1 come first, in discovery order. */
  lemma ExampleOrdering()
    ensures OrderExecution(ExampleClasses()).candidates
         == [Candidate(11, 1), Candidate(12, 1), Candidate(10, 2)]
  {
    var cs := [Candidate(10, 2), Candidate(11, 1), Candidate(12, 1)];
    assert Validate(ExampleClasses()) == Valid(cs);
    assert OrderBy(cs[2..]) == [Candidate(12, 1)];
    assert OrderBy(cs[1..]) == [Candidate(11, 1), Candidate(12, 1)];
  }

  function ExampleClasses(): seq<ClassDecl> {
    [ClassDecl(10, None, Some(InitializeAtRuntime(2))),
     ClassDecl(11, None, Some(InitializeAtRuntime(1))),
     ClassDecl(12, None, Some(InitializeAtRuntime(1)))]
  }

  function ExampleCtors(): map<TypeId, Constructor> {
    map[12 := Constructor([7], [8], false)]
  }

  lemma ExampleRegistrations()
    ensures var ordered := [Candidate(11, 1), Candidate(12, 1), Candidate(10, 2)];
            && BeforeRegistrations(ordered, ExampleCtors()) == [7]
            && AfterRegistrations(ordered, ExampleCtors()) == [8]
  {
    var ordered := [Candidate(11, 1), Candidate(12, 1), Candidate(10, 2)];
    assert BeforeRegistrations(ordered[2..], ExampleCtors()) == [];
    assert AfterRegistrations(ordered[2..], ExampleCtors()) == [];
    assert ordered[1..][1..] == ordered[2..];
  }

  lemma ExampleInstantiateLast()
    ensures Instantiate([Candidate(10, 2)], 2, ExampleCtors()) == Creation([Instance(2, 10)], 3, [], [], None)
  {
    assert [Candidate(10, 2)][1..] == [];
  }

  lemma ExampleInstantiateTail()
    ensures Instantiate([Candidate(12, 1), Candidate(10, 2)], 1, ExampleCtors())
         == Creation([Instance(1, 12), Instance(2, 10)], 3, [7], [8], None)
  {
    ExampleInstantiateLast();
    assert [Candidate(12, 1), Candidate(10, 2)][1..] == [Candidate(10, 2)];
  }

  lemma ExampleInstantiate()
    ensures Instantiate([Candidate(11, 1), Candidate(12, 1), Candidate(10, 2)], 0, ExampleCtors())
         == Creation([Instance(0, 11), Instance(1, 12), Instance(2, 10)], 3, [7], [8], None)
  {
    ExampleInstantiateTail();
    assert [Candidate(11, 1), Candidate(12, 1), Candidate(10, 2)][1..] == [Candidate(12, 1), Candidate(10, 2)];
  }

  /** Run from process start on those classes, where the constructor of the
      last one registers before-hook 7 and after-hook 8: the services are
      created in the order second, third, first, with both hooks registered. */
  lemma ExampleState()
    ensures var r := Initialize(Unloaded, ExampleClasses(), ExampleCtors());
            && r.failure == None
            && r.core.services == [Instance(0, 11), Instance(1, 12), Instance(2, 10)]
            && r.core.before == [7] && r.core.after == [8]
  {
    ExampleOrdering();
    ExampleInstantiate();
  }

  /** The calls of that run: hook 7, the three services in creation order,
      then hook 8. */
  lemma ExampleRun()
    ensures var t := Initialize(Unloaded, ExampleClasses(), ExampleCtors()).trace;
            && |t| == 5
            && t[0] == BeforeHookRan(7)
            && t[1] == ServiceInitialized(Instance(0, 11))
            && t[2] == ServiceInitialized(Instance(1, 12))
            && t[3] == ServiceInitialized(Instance(2, 10))
            && t[4] == AfterHookRan(8)
  {
    ExampleState();
    ExamplePhases();
  }

  lemma ExamplePhases()
    ensures var t := Phases([7], [Instance(0, 11), Instance(1, 12), Instance(2, 10)], [8]);
            && |t| == 5
            && t[0] == BeforeHookRan(7)
            && t[1] == ServiceInitialized(Instance(0, 11))
            && t[2] == ServiceInitialized(Instance(1, 12))
            && t[3] == ServiceInitialized(Instance(2, 10))
            && t[4] == AfterHookRan(8)
  {
    PhaseOrder([7], [Instance(0, 11), Instance(1, 12), Instance(2, 10)], [8]);
  }

  /** `Initialize` with the hook lists kept rather than replaced, so hooks
      registered before the run take part in it, ahead of those its
      constructors register (lists never assigned count as empty). */
  function InitializeKeepingHooks(c: Core, classes: seq<ClassDecl>, ctors: map<TypeId, Constructor>): (r: Run)
    ensures var r0 := Initialize(c, classes, ctors);
            && r.core.before == (if c.loaded then c.before else []) + r0.core.before
            && r.core.after == (if c.loaded then c.after else []) + r0.core.after
            && r.core.services == r0.core.services
            && r.failure == r0.failure
    ensures r.failure.None? ==> r.trace == Phases(r.core.before, r.core.services, r.core.after)
  {
    var before, after := if c.loaded then c.before else [], if c.loaded then c.after else [];
    KeptListsPrefix(c, classes, ctors, before, after);
    RunWith(c, classes, ctors, before, after)
  }

  /** The hook lists a run starts from only prefix the lists it ends with. */
  lemma KeptListsPrefix(c: Core, classes: seq<ClassDecl>, ctors: map<TypeId, Constructor>,
                        before: seq<Hook>, after: seq<Hook>)
    ensures var r, r0 := RunWith(c, classes, ctors, before, after), RunWith(c, classes, ctors, [], []);
            && r.core == r0.core.(before := before + r0.core.before, after := after + r0.core.after)
            && r.failure == r0.failure
  {
    if OrderExecution(classes).Valid? {
      var made := Instantiate(OrderExecution(classes).candidates, c.nextObject, ctors);
      assert [] + made.before == made.before && [] + made.after == made.after;
    }
  }

  /** As written, a before-hook registered ahead of a run changes nothing
      about that run: it is dropped unregistered and uncalled. */
  lemma RegisteredHookIgnored(c: Core, h: Hook, classes: seq<ClassDecl>, ctors: map<TypeId, Constructor>)
    requires c.loaded
    ensures Initialize(AddBeforeInitializeTask(c, h), classes, ctors) == Initialize(c, classes, ctors)
  {
    InitializeDropsEarlierHooks(c, classes, ctors, c.before + [h], c.after);
  }

  /** With the lists kept, a registered before-hook is called, and before any
      service is initialized. */
  lemma RegisteredHookRunsFirst(c: Core, h: Hook, classes: seq<ClassDecl>, ctors: map<TypeId, Constructor>)
    requires c.loaded
    requires InitializeKeepingHooks(AddBeforeInitializeTask(c, h), classes, ctors).failure.None?
    ensures var t := InitializeKeepingHooks(AddBeforeInitializeTask(c, h), classes, ctors).trace;
            exists k :: 0 <= k < |t| && t[k] == BeforeHookRan(h)
                        && forall j :: 0 <= j < |t| && t[j].ServiceInitialized? ==> k < j
  {
    var c' := AddBeforeInitializeTask(c, h);
    var r := InitializeKeepingHooks(c', classes, ctors);
    PhaseOrder(r.core.before, r.core.services, r.core.after);
    var k := |c.before|;
    assert r.core.before[k] == h;
    assert r.trace[k] == BeforeHookRan(h);
  }
}

=== FILE: ordering.dfy ===
/** `OrderExecution`: validate that every discovered service class carries
    the descriptor, then order the classes by ascending priority. Discovery
    itself (scanning loaded assemblies for classes implementing the service
    interface) is an input: the sequence of classes in discovery order. */
module Ordering {
  import opened Base
  import opened RuntimeAttribute
  import opened StableSort

  datatype Validated = Valid(candidates: seq<Candidate>) | Invalid(error: BootError)

  ghost predicate Annotated(c: ClassDecl) {
    GetAttribute(c).Some?
  }

  /** The validation loop followed by the `Where(... != null)` projection: the
      first class (in discovery order) without the descriptor is reported and
      nothing else is looked at; otherwise each class is paired with its
      declared priority. */
  function Validate(classes: seq<ClassDecl>): (r: Validated)
    ensures r.Invalid? <==> exists i :: 0 <= i < |classes| && !Annotated(classes[i])
    ensures r.Invalid? ==> exists i :: 0 <= i < |classes| && !Annotated(classes[i])
                                      && r.error == MissingAttribute(classes[i].id)
                                      && forall j :: 0 <= j < i ==> Annotated(classes[j])
    ensures r.Valid? ==> |r.candidates| == |classes|
    ensures r.Valid? ==> forall i :: 0 <= i < |classes| ==>
              r.candidates[i] == Candidate(classes[i].id, classes[i].declared.value.InitializationPriority)
  {
    if classes == [] then Valid([])
    else match GetAttribute(classes[0])
      case None => Invalid(MissingAttribute(classes[0].id))
      case Some(a) =>
        match Validate(classes[1..])
        case Invalid(e) =>
          ghost var i :| 0 <= i < |classes[1..]| && !Annotated(classes[1..][i])
                         && e == MissingAttribute(classes[1..][i].id)
                         && forall j :: 0 <= j < i ==> Annotated(classes[1..][j]);
          assert !Annotated(classes[i + 1]);
          Invalid(e)
        case Valid(rest) =>
          Valid([Candidate(classes[0].id, a.InitializationPriority)] + rest)
  }

  /** `OrderExecution`, with the null result modelled as the logged error. */
  function OrderExecution(classes: seq<ClassDecl>): (r: Validated)
    ensures r.Invalid? <==> exists i :: 0 <= i < |classes| && !Annotated(classes[i])
    ensures r.Invalid? ==> r == Validate(classes)
    ensures r.Valid? ==> Validate(classes).Valid?
                         && Sorted(r.candidates)
                         && multiset(r.candidates) == multiset(Validate(classes).candidates)
  {
    match Validate(classes)
    case Invalid(e) => Invalid(e)
    case Valid(cs) => Valid(OrderBy(cs))
  }

  /** Ties keep discovery order, and the ordering is the only sorted
      rearrangement that does. */
  lemma OrderExecutionIsStable(classes: seq<ClassDecl>, r: seq<Candidate>)
    requires OrderExecution(classes).Valid?
    ensures SameTies(OrderExecution(classes).candidates, Validate(classes).candidates)
    ensures Sorted(r) && SameTies(r, Validate(classes).candidates)
            <==> r == OrderExecution(classes).candidates
  {
    OrderByIsStable(Validate(classes).candidates);
    if Sorted(r) && SameTies(r, Validate(classes).candidates) {
      OrderByIsTheStableSort(Validate(classes).candidates, r);
    }
  }

  /** The descriptor is neither inherited nor looked up with inheritance: a
      subclass of an annotated service that does not repeat the attribute
      makes the whole ordering fail, naming it when it is the first such
      class. This is the case of `Validate`'s rule that every class without
      its own descriptor is rejected where the base class has one: the
      base's descriptor makes no difference. */
  lemma SubclassOfAnnotatedServiceIsRejected(classes: seq<ClassDecl>, parent: nat, child: nat)
    requires parent < |classes| && child < |classes|
    requires classes[parent].declared.Some?
    requires classes[child].base == Some(classes[parent].id) && classes[child].declared.None?
    ensures OrderExecution(classes).Invalid?
    ensures (forall j :: 0 <= j < child ==> Annotated(classes[j]))
              ==> OrderExecution(classes).error == MissingAttribute(classes[child].id)
  {
    assert !Annotated(classes[child]);
    if forall j :: 0 <= j < child ==> Annotated(classes[j]) {
      var i :| 0 <= i < |classes| && !Annotated(classes[i])
               && Validate(classes).error == MissingAttribute(classes[i].id)
               && forall j :: 0 <= j < i ==> Annotated(classes[j]);
      assert i == child;
    }
  }
}

=== FILE: registry.dfy ===
/** The process-wide state of `Core` and the operations that only read or
    edit it: the cached lookup `Get` and the hook-list maintenance. */
module Registry {
  import opened Base

  /** The static fields of `Core`. `loaded` is false until the first
      bootstrap run assigns the four collections (before that they are null,
      and `Get` and the hook operations would dereference null, so they
      require `loaded`). `nextObject` stands for the managed heap: every
      object created later gets an identity not below it. */
  datatype Core = Core(
    loaded: bool,
    services: seq<Instance>,
    cache: map<TypeId, Instance>,
    before: seq<Hook>,
    after: seq<Hook>,
    nextObject: nat)

  /** The state at process start: every field null, nothing allocated by the bootstrap. */
  const Unloaded := Core(false, [], map[], [], [], 0)

  /** The subtyping relation of the loaded program: `(sub, super)` pairs
      meaning a value of class `sub` can be used as a `super`. */
  datatype TypeGraph = TypeGraph(assignable: set<(TypeId, TypeId)>)

  /** `Type.IsInstanceOfType`: the object's class is the type or a subtype of it. */
  predicate IsInstanceOfType(g: TypeGraph, t: TypeId, o: Instance)
    ensures o.ty == t ==> IsInstanceOfType(g, t, o)
    ensures (o.ty, t) in g.assignable ==> IsInstanceOfType(g, t, o)
  {
    o.ty == t || (o.ty, t) in g.assignable
  }

  /** The first service that is an instance of `t`, or `None` (null) when none is. */
  function FirstMatch(g: TypeGraph, services: seq<Instance>, t: TypeId): (r: Option<Instance>)
    ensures r.None? <==> forall i :: 0 <= i < |services| ==> !IsInstanceOfType(g, t, services[i])
    ensures r.Some? ==> exists i :: 0 <= i < |services| && services[i] == r.value
                                    && IsInstanceOfType(g, t, services[i])
                                    && forall j :: 0 <= j < i ==> !IsInstanceOfType(g, t, services[j])
  {
    if services == [] then None
    else if IsInstanceOfType(g, t, services[0]) then Some(services[0])
    else
      var r := FirstMatch(g, services[1..], t);
      if r.Some? then
        ghost var i :| 0 <= i < |services[1..]| && services[1..][i] == r.value
                       && IsInstanceOfType(g, t, services[1..][i])
                       && forall j :: 0 <= j < i ==> !IsInstanceOfType(g, t, services[1..][j]);
        assert services[i + 1] == r.value;
        r
      else r
  }

  /** Every cached entry is what an uncached lookup would find now. */
  ghost predicate CacheCoherent(g: TypeGraph, c: Core) {
    forall t :: t in c.cache ==> FirstMatch(g, c.services, t) == Some(c.cache[t])
  }

  /** Every service was created before `nextObject`, so later objects are new. */
  ghost predicate Allocated(c: Core) {
    forall i :: 0 <= i < |c.services| ==> c.services[i].id < c.nextObject
  }

  datatype Lookup = Lookup(result: Option<Instance>, core: Core)

  /** `Get(Type)` (and `Get<T>`, which casts its result): a cache hit is
      returned as is; otherwise the first service that is an instance of `t`
      is cached and returned; a miss returns null and caches nothing. */
  function Get(g: TypeGraph, c: Core, t: TypeId): (r: Lookup)
    requires c.loaded
    ensures r.core.services == c.services && r.core.before == c.before
            && r.core.after == c.after && r.core.nextObject == c.nextObject && r.core.loaded
    ensures t in c.cache ==> r == Lookup(Some(c.cache[t]), c)
    ensures r.result.None? ==> r.core == c
    ensures r.result.Some? ==> t in r.core.cache && r.core.cache[t] == r.result.value
    ensures r.core.cache.Keys == c.cache.Keys + (if r.result.Some? then {t} else {})
    ensures CacheCoherent(g, c) ==> r.result == FirstMatch(g, c.services, t) && CacheCoherent(g, r.core)
  {
    if t in c.cache then Lookup(Some(c.cache[t]), c)
    else
      match FirstMatch(g, c.services, t)
      case None => Lookup(None, c)
      case Some(s) => Lookup(Some(s), c.(cache := c.cache[t := s]))
  }

  /** Once a lookup has been answered, asking again gives the same instance
      and leaves the state as it was. */
  lemma GetIsStable(g: TypeGraph, c: Core, t: TypeId)
    requires c.loaded
    ensures Get(g, Get(g, c, t).core, t).result == Get(g, c, t).result
    ensures Get(g, Get(g, c, t).core, t).core == Get(g, c, t).core
  {
  }

  /** With no services, every lookup is a miss. */
  lemma GetOnEmptyIsNull(g: TypeGraph, c: Core, t: TypeId)
    requires c.loaded && c.services == [] && c.cache == map[]
    ensures Get(g, c, t) == Lookup(None, c)
  {
  }

  /** Position of the first element equal to `h`. */
  function IndexOf(l: seq<Hook>, h: Hook): (i: nat)
    requires h in l
    ensures i < |l| && l[i] == h && h !in l[..i]
  {
    if l[0] == h then 0 else 1 + IndexOf(l[1..], h)
  }

  /** `List.Remove`: deletes the first element equal to `h`, if any, keeping
      the others in order. */
  function RemoveFirst(l: seq<Hook>, h: Hook): (r: seq<Hook>)
    ensures h !in l ==> r == l
    ensures h in l ==> r == l[..IndexOf(l, h)] + l[IndexOf(l, h) + 1..]
  {
    if l == [] then []
    else if l[0] == h then l[1..]
    else
      assert l == [l[0]] + l[1..];
      assert h in l[1..] ==> l[..IndexOf(l, h)] == [l[0]] + l[1..][..IndexOf(l[1..], h)];
      [l[0]] + RemoveFirst(l[1..], h)
  }

  /** Removing takes away exactly one copy of a registered hook. */
  lemma {:induction false} RemoveTakesOneCopy(l: seq<Hook>, h: Hook)
    ensures multiset(RemoveFirst(l, h)) == multiset(l) - multiset{h}
  {
    if h in l {
      var i := IndexOf(l, h);
      var front, back := l[..i], l[i + 1..];
      assert l == front + [h] + back;
      assert multiset(l) == multiset(front) + multiset{h} + multiset(back);
      assert RemoveFirst(l, h) == front + back;
    } else {
      assert RemoveFirst(l, h) == l;
      assert h !in multiset(l);
    }
  }

  /** Removing a hook just added, and not registered before, restores the list. */
  lemma RemoveUndoesAdd(l: seq<Hook>, h: Hook)
    requires h !in l
    ensures RemoveFirst(l + [h], h) == l
  {
    assert IndexOf(l + [h], h) == |l|;
    assert (l + [h])[..|l|] == l;
  }

  function AddBeforeInitializeTask(c: Core, h: Hook): (r: Core)
    requires c.loaded
    ensures r.before == c.before + [h] && r == c.(before := r.before)
  {
    c.(before := c.before + [h])
  }

  function RemoveBeforeInitializeTask(c: Core, h: Hook): (r: Core)
    requires c.loaded
    ensures r.before == RemoveFirst(c.before, h) && r == c.(before := r.before)
  {
    c.(before := RemoveFirst(c.before, h))
  }

  function AddAfterInitializeTask(c: Core, h: Hook): (r: Core)
    requires c.loaded
    ensures r.after == c.after + [h] && r == c.(after := r.after)
  {
    c.(after := c.after + [h])
  }

  function RemoveAfterInitializeTask(c: Core, h: Hook): (r: Core)
    requires c.loaded
    ensures r.after == RemoveFirst(c.after, h) && r == c.(after := r.after)
  {
    c.(after := RemoveFirst(c.after, h))
  }

  /** The hook operations touch neither the services nor the cache, so
      lookups answer as before. */
  lemma HookEditsKeepLookups(g: TypeGraph, c: Core, h: Hook, t: TypeId)
    requires c.loaded && CacheCoherent(g, c)
    ensures CacheCoherent(g, AddBeforeInitializeTask(c, h))
    ensures CacheCoherent(g, RemoveBeforeInitializeTask(c, h))
    ensures CacheCoherent(g, AddAfterInitializeTask(c, h))
    ensures CacheCoherent(g, RemoveAfterInitializeTask(c, h))
    ensures Get(g, AddBeforeInitializeTask(c, h), t).result == Get(g, c, t).result
    ensures Get(g, RemoveBeforeInitializeTask(c, h), t).result == Get(g, c, t).result
    ensures Get(g, AddAfterInitializeTask(c, h), t).result == Get(g, c, t).result
    ensures Get(g, RemoveAfterInitializeTask(c, h), t).result == Get(g, c, t).result
  {
  }

  /** The UniTask build's `RemoveAfterInitializeTask` and
      `RemoveBeforeInitializeTask`, as written: they append. */
  function AsyncRemoveAsWritten(l: seq<Hook>, h: Hook): (r: seq<Hook>)
    ensures |r| == |l| + 1 && r[..|l|] == l && r[|l|] == h
  {
    l + [h]
  }

  /** Removing a hook in the UniTask build leaves it registered,
      now twice. */
  lemma AsyncRemoveKeepsHook(l: seq<Hook>, h: Hook)
    ensures h in AsyncRemoveAsWritten(l, h)
    ensures multiset(AsyncRemoveAsWritten(l, h))[h] == multiset(l)[h] + 1
    ensures h in l ==> multiset(RemoveFirst(l, h))[h] == multiset(l)[h] - 1
  {
    RemoveTakesOneCopy(l, h);
  }
}

=== FILE: stable_sort.dfy ===
/** LINQ `OrderBy` on priorities: a stable sort, modelled as insertion sort
    and characterised independently of its definition. */
module StableSort {
  import opened Base

  /** A validated candidate: a service class and the priority its descriptor declares. */
  datatype Candidate = Candidate(ty: TypeId, priority: int32)

  ghost predicate Sorted(s: seq<Candidate>) {
    forall i, j :: 0 <= i < j < |s| ==> s[i].priority <= s[j].priority
  }

  /** The candidates of `s` whose priority is `p`, in their order in `s`. */
  function WithPriority(s: seq<Candidate>, p: int32): seq<Candidate> {
    if s == [] then []
    else (if s[0].priority == p then [s[0]] else []) + WithPriority(s[1..], p)
  }

  /** Stability: every priority class appears in the same relative order in both. */
  ghost predicate SameTies(a: seq<Candidate>, b: seq<Candidate>) {
    forall p :: WithPriority(a, p) == WithPriority(b, p)
  }

  /** Puts `c` in front of the first element whose priority is not smaller,
      so it lands before every element of equal priority. */
  function Insert(c: Candidate, s: seq<Candidate>): (r: seq<Candidate>)
    requires Sorted(s)
    ensures Sorted(r)
    ensures multiset(r) == multiset(s) + multiset{c}
    ensures |r| == |s| + 1
  {
    if s == [] || c.priority <= s[0].priority then [c] + s
    else
      var t := Insert(c, s[1..]);
      assert s == [s[0]] + s[1..];
      InsertedAboveHead(c, s, t);
      [s[0]] + t
  }

  /** When `c` belongs after the head of `s`, inserting it into the tail
      keeps the head in front. */
  lemma InsertedAboveHead(c: Candidate, s: seq<Candidate>, t: seq<Candidate>)
    requires Sorted(s) && s != [] && s[0].priority < c.priority
    requires multiset(t) == multiset(s[1..]) + multiset{c} && Sorted(t)
    ensures Sorted([s[0]] + t)
  {
    forall k | 0 <= k < |t| ensures s[0].priority <= t[k].priority {
      assert t[k] in multiset(t);
      if t[k] != c {
        assert t[k] in s[1..];
      }
    }
  }

  /** `OrderBy(x => priority)`: the elements of `s`, sorted by ascending
      priority, ties in their order in `s`. */
  function OrderBy(s: seq<Candidate>): (r: seq<Candidate>)
    ensures Sorted(r)
    ensures multiset(r) == multiset(s)
    ensures |r| == |s|
  {
    if s == [] then []
    else
      assert s == [s[0]] + s[1..];
      Insert(s[0], OrderBy(s[1..]))
  }

  lemma {:induction false} InsertTies(c: Candidate, s: seq<Candidate>, p: int32)
    requires Sorted(s)
    ensures WithPriority(Insert(c, s), p)
         == (if c.priority == p then [c] else []) + WithPriority(s, p)
  {
    if s == [] || c.priority <= s[0].priority {
      assert Insert(c, s) == [c] + s;
      assert ([c] + s)[1..] == s;
    } else {
      var t := Insert(c, s[1..]);
      InsertTies(c, s[1..], p);
      assert Insert(c, s) == [s[0]] + t;
      TiesOfCons(s[0], t, p);
      assert s == [s[0]] + s[1..];
      TiesOfCons(s[0], s[1..], p);
      if c.priority == p {
        assert WithPriority(t, p) == [c] + WithPriority(s[1..], p);
      } else {
        assert WithPriority(t, p) == WithPriority(s[1..], p);
      }
    }
  }

  /** The tie class of a list with a first element: that element, if it has
      the priority, then the tie class of the rest. */
  lemma TiesOfCons(x: Candidate, s: seq<Candidate>, p: int32)
    ensures x.priority == p ==> WithPriority([x] + s, p) == [x] + WithPriority(s, p)
    ensures x.priority != p ==> WithPriority([x] + s, p) == WithPriority(s, p)
  {
    assert ([x] + s)[1..] == s;
  }

  /** Equal priorities keep their discovery order. */
  lemma {:induction false} OrderByIsStable(s: seq<Candidate>)
    ensures SameTies(OrderBy(s), s)
  {
    forall p ensures WithPriority(OrderBy(s), p) == WithPriority(s, p) {
      OrderByTies(s, p);
    }
  }

  lemma {:induction false} OrderByTies(s: seq<Candidate>, p: int32)
    ensures WithPriority(OrderBy(s), p) == WithPriority(s, p)
  {
    if s != [] {
      OrderByTies(s[1..], p);
      InsertTies(s[0], OrderBy(s[1..]), p);
    }
  }

  lemma TiesContain(s: seq<Candidate>, i: nat)
    requires i < |s|
    ensures s[i] in WithPriority(s, s[i].priority)
  {
    if i > 0 {
      TiesContain(s[1..], i - 1);
    }
  }

  lemma TiesFrom(s: seq<Candidate>, p: int32, x: Candidate)
    requires x in WithPriority(s, p)
    ensures x in s && x.priority == p
  {
    if s != [] && x !in (if s[0].priority == p then [s[0]] else []) {
      TiesFrom(s[1..], p, x);
    }
  }

  lemma {:induction false} TiesOfTail(s: seq<Candidate>, q: int32)
    requires s != []
    ensures WithPriority(s[1..], q)
         == if s[0].priority == q then WithPriority(s, q)[1..] else WithPriority(s, q)
  {
  }

  /** Two sorted sequences with the same ties start with the same element. */
  lemma SameTiesSameHead(a: seq<Candidate>, b: seq<Candidate>)
    requires Sorted(a) && Sorted(b) && SameTies(a, b) && a != []
    ensures b != [] && a[0] == b[0]
  {
    TiesContain(a, 0);
    assert WithPriority(b, a[0].priority) == WithPriority(a, a[0].priority);
    assert b != [];
    TiesContain(b, 0);
    var k := a[0].priority;
    var kb := b[0].priority;
    assert WithPriority(a, kb) == WithPriority(b, kb);
    TiesFrom(a, kb, b[0]);
    TiesFrom(b, k, a[0]);
    assert k == kb;
    assert WithPriority(a, k)[0] == a[0];
    assert WithPriority(b, k)[0] == b[0];
  }

  /** Dropping equal heads keeps the ties equal. */
  lemma SameTiesOfTails(a: seq<Candidate>, b: seq<Candidate>)
    requires SameTies(a, b) && a != [] && b != [] && a[0] == b[0]
    ensures SameTies(a[1..], b[1..])
  {
    forall q ensures WithPriority(a[1..], q) == WithPriority(b[1..], q) {
      TiesOfTail(a, q);
      TiesOfTail(b, q);
      assert WithPriority(a, q) == WithPriority(b, q);
    }
  }

  /** A sorted sequence with the same ties as another sorted sequence is that
      sequence: sortedness and stability determine the result. */
  lemma {:induction false} SortedWithSameTiesAreEqual(a: seq<Candidate>, b: seq<Candidate>)
    requires Sorted(a) && Sorted(b) && SameTies(a, b)
    ensures a == b
  {
    if a == [] {
      if b != [] {
        SameTiesSameHead(b, a);
        assert false;
      }
    } else {
      SameTiesSameHead(a, b);
      SameTiesOfTails(a, b);
      SortedWithSameTiesAreEqual(a[1..], b[1..]);
      assert a == [a[0]] + a[1..];
      assert b == [b[0]] + b[1..];
    }
  }

  /** `OrderBy` is THE stable sort: any sorted rearrangement of `s` that keeps
      ties in order is `OrderBy(s)`. */
  lemma OrderByIsTheStableSort(s: seq<Candidate>, r: seq<Candidate>)
    requires Sorted(r) && SameTies(r, s)
    ensures r == OrderBy(s)
  {
    OrderByIsStable(s);
    SortedWithSameTiesAreEqual(r, OrderBy(s));
  }
}
